=== FILE: README.md ===
# Signiant platform status skill — Dafny model

A model of the voice-assistant skill in `alexa_signiant_status.py`. The skill
reads the Signiant status page's component list, groups the components into
named services, and picks out the services that are not operational. It then
speaks a report and shows a card, wrapped in the voice platform's response
envelope. The model covers this pipeline and the request router around it.

Modules, one per part of the script:

- `Services` (services.dfy): feed records (`Component`) and the grouping done
  by `get_signiant_status`. The Python dict of services is a sequence of
  `Service` entries with distinct names, in insertion order. Writing a name
  that is already present replaces its status in place.
- `Health` (health.dfy): `convert_status_to_readable` and the problem filter of
  `general_status`. Both use Python's substring test.
- `Summary` (summary.dfy): the spoken report and card text of `general_status`.
  It has a declarative definition (`Speech`, `CardText`) and the loops as
  written (`BuildReport` and its three helpers), proved equal.
- `Ssml` (ssml.dfy): `pause`, `say_as`, `handle_audio` and the `<speak>` root.
- `Envelope` (envelope.dfy): `build_speechlet_response` and `build_response`.
- `Router` (router.dfy): the help, session-end and status handlers,
  `on_intent`, and `lambda_handler`.
- `Text`, `Wrappers`, `Faults`: string helpers (substring, concatenation,
  split/join, `str()` of an int), Option/Result, and the exceptions the script
  raises.

Inputs the script takes from the outside world are parameters here:

- the component list that `get_raw_component_status` fetches;
- the configured `applicationId`;
- the `today` and `now` strings that `time.strftime` produces.

Raised exceptions are `Failure` values of a `Result`.

Behaviour the code fixes that a reader might expect otherwise:

- A service is healthy when its status *contains* `operational`. It is not an
  exact match.
- A component with no truthy `group_id` is dropped from the report. It is not
  listed under its bare name, so an outage on such a component is never
  spoken (`Summary.UngroupedOutageExample`).
- `AMAZON.HelpIntent` keeps the session open.
- An unknown intent name is a failure (`InvalidIntent`).
- A request type other than the three known ones returns no envelope, since
  `lambda_handler` falls off its `if` chain.

## Model

| member | source | states |
|---|---|---|
| `Services.GroupNames` | alexa_signiant_status.py:60-63 | the group table holds exactly the ids of records flagged `group`; an id reused by several group records maps to the name of the last one |
| `Services.PutIsDictAssignment` | alexa_signiant_status.py:71 | assigning a service keeps names unique, makes the name map to the new status, leaves every other name's status as it was, adds no other entry, and grows the table only for a new name |
| `Services.CollectServices` | alexa_signiant_status.py:65-72 | grouping succeeds iff every truthy `group_id` is a known group; a failure names the first record in feed order whose group is unknown; every entry is `"<group name> <component name>"` with the status of a record that has a truthy, known `group_id`, so records without a `group_id` never appear; names are unique |
| `Services.GetServices` | alexa_signiant_status.py:43-72 | on the fetched list, a failure names the `group_id` of some record that no group record carries; on success the names are unique, every entry is some grouped record's group name, a space and its own name, with that record's status, every record with a truthy `group_id` leaves an entry, and each name holds the status of the last record in feed order written under it |
| `Services.CollectServicesIsLastWrite` | alexa_signiant_status.py:65-72 | after grouping, each name maps to the status of the last record in feed order with that display name, and names no record produces are absent |
| `Services.GroupedRecordAppears` | alexa_signiant_status.py:66-71 | every record with a truthy `group_id` leaves an entry under its display name |
| `Services.CollectServicesComplete` | alexa_signiant_status.py:65-71 | over the whole table: every record with a truthy `group_id` leaves an entry, and every name holds its last writer's status |
| `Services.LastStatusFound` | alexa_signiant_status.py:66-71 | a grouped record's display name always has a last writer in the feed |
| `Services.GetServicesFailsOnUnknownGroup` | alexa_signiant_status.py:60-69 | `get_signiant_status` raises exactly when some truthy `group_id` is not the id of any group record of the feed |
| `Services.BackendGroupExample` | alexa_signiant_status.py:60-72 | a group "Backend" (id g1) and an operational leaf "v1" in g1 give the single service "Backend v1" |
| `Health.Readable` | alexa_signiant_status.py:75-85 | the readable status equals the input iff the input contains none of the four codes; it never contains a code; it is the input or one of the four phrases; which phrase is stated by `Health.ReadableFirstCode` |
| `Health.ReadableIdempotent` | alexa_signiant_status.py:75-85 | converting an already converted status changes nothing |
| `Health.ReadableCodes` | alexa_signiant_status.py:76-83 | each of the four bare codes maps to its own phrase |
| `Health.ReadableFirstCode` | alexa_signiant_status.py:76-83 | a status containing a code is spoken as the phrase of the first code it contains in the test order degraded, major, partial, maintenance, whatever later codes it also contains |
| `Health.ReadableTwoCodesExample` | alexa_signiant_status.py:76-79 | `major_outage degraded_performance` is spoken as "degraded performance": the test order decides, not the order in the text |
| `Health.ReadableKeepsPlainText` | alexa_signiant_status.py:84-85 | a status without an underscore, such as `operational`, passes through unchanged |
| `Health.Problems` | alexa_signiant_status.py:178-181 | the problem list is an order-preserving subsequence of the services holding exactly those whose status lacks `operational`; it is empty iff every service is operational |
| `Health.FewerProblemsIffSomeOperational` | alexa_signiant_status.py:176-196 | there are fewer problems than services iff some service is operational, which is when the "All other services" sentence is spoken |
| `Summary.SpeechAllOperational` | alexa_signiant_status.py:191-200 | with no problem the report is the dated opening, a pause and "All services operating normally", and does not end with the status-page pointer |
| `Summary.SpeechWithProblems` | alexa_signiant_status.py:191-198 | with a problem the report is the opening, one "<svc> has a status of <readable status>" sentence and pause per problem in table order, "All other services are operating normally" exactly when some service is operational, and the status-page pointer last |
| `Summary.SpeechPointsToStatusPage` | alexa_signiant_status.py:194-200 | the spoken report ends with the status-page pointer exactly when some service's status lacks `operational` |
| `Summary.CardLines` | alexa_signiant_status.py:186-189 | read line by line, the card is the dated header, exactly one `name: status` line per service in table order, and the status-page line, when no input holds a newline |
| `Summary.OperationalGroupExample` | alexa_signiant_status.py:173-202 | for the Backend/v1 feed the report is the opening and "All services operating normally", and the card lists the one service |
| `Summary.OperationalGroupCardLine` | alexa_signiant_status.py:188 | that service's card line reads `Backend v1: operational` |
| `Summary.UngroupedOutageExample` | alexa_signiant_status.py:66-72 | a major outage on a component outside any group is dropped, so the report says all services operate normally and the card lists none |
| `Summary.CollectProblems` | alexa_signiant_status.py:178-181 | the filtering loop builds the problem list |
| `Summary.BuildCard` | alexa_signiant_status.py:186-189 | the card loop builds the card text |
| `Summary.SpeakProblems` | alexa_signiant_status.py:194-195 | the sentence loop speaks one sentence per problem, in order |
| `Summary.BuildSpeech` | alexa_signiant_status.py:191-200 | the speech assembly builds the spoken report |
| `Summary.BuildReport` | alexa_signiant_status.py:173-202 | `general_status` as written returns the spoken report and the card text |
| `Summary.GeneralStatus` | alexa_signiant_status.py:173-202 | the report exists iff grouping succeeds, else it carries the grouping fault; on success it is the spoken report `Speech` (characterised by `SpeechWithProblems` and `SpeechAllOperational`) and the card text of the grouped table; the speech ends with the status-page pointer iff some service has a problem; with no newline in the date, time, names or statuses the card reads line by line as header, one line per service, status-page line |
| `Ssml.PauseRoundTrip` | alexa_signiant_status.py:90-91 | a pause marker carries back exactly the duration it was built with |
| `Ssml.SayAsRoundTrip` | alexa_signiant_status.py:94-95 | the message inside a say-as hint is recovered unchanged |
| `Ssml.HandleAudioRoundTrip` | alexa_signiant_status.py:98-99 | the url inside an audio element is recovered unchanged |
| `Ssml.Speak` | alexa_signiant_status.py:108-111 | the text inside the `<speak>` root is recovered unchanged |
| `Envelope.ImageUrl` | alexa_signiant_status.py:119-122 | an image url is kept exactly when it is truthy |
| `Envelope.BuildSpeechlet` | alexa_signiant_status.py:104-139 | speech and reprompt are each the text inside `<speak>`, the reprompt even when empty; the card is Standard iff a small or large image is truthy, otherwise Simple; the body and title are the given ones; each image url is present iff truthy; the session flag is passed through |
| `Envelope.BuildResponse` | alexa_signiant_status.py:142-147 | the envelope has version `1.0` and carries the given session attributes and speechlet |
| `Router.HelpResponse` | alexa_signiant_status.py:152-158 | help keeps the session open, speaks the help text (with its pause before the question), shows the same text on a Simple card titled "Signiant Help", and reprompts "What can I help you with?" |
| `Router.SessionEndResponse` | alexa_signiant_status.py:166-170 | cancel/stop says "Thank you.", shows it on a Simple card titled "Session Ended", ends the session and has an empty reprompt |
| `Router.StatusResponse` | alexa_signiant_status.py:205-211 | the status response exists iff grouping succeeds, else it carries the grouping fault; it ends the session, its Simple card holds the card text, its speech the spoken report and its reprompt is empty |
| `Router.OnIntent` | alexa_signiant_status.py:244-256 | the status intent answers with the status response, help with the help response, cancel/stop with the session-end response; a missing intent or one outside the intent table fails; every answer's session flag is the one the table gives |
| `Router.LambdaHandler` | alexa_signiant_status.py:270-290 | an application-id mismatch fails before any handler runs; past the guard a launch gives exactly the status response and an intent request exactly what `on_intent` gives, faults included; an envelope is returned only for a Launch or Intent request, and it has version `1.0` |
| `Router.LaunchGivesStatus` | alexa_signiant_status.py:285-286 | a launch succeeds iff grouping succeeds and then answers with the status response, which ends the session |
| `Router.SessionEndedGivesNothing` | alexa_signiant_status.py:289-290 | a session-ended notification returns no envelope |
| `Router.IntentOutcome` | alexa_signiant_status.py:248-256 | through the handler, an unknown intent fails, help gives the help response and keeps the session open, cancel/stop give the session-end response and end it, and the status intent succeeds iff grouping succeeds and then gives the status response |

## Left out

- `get_raw_component_status` (lines 27-40) is left out: the HTTP request, the `OAuth` header, the 2-second timeout and JSON parsing. The component list it returns is a parameter.
- Environment configuration (lines 11-24) is left out. The application id is a field of `Router.Context`. The start-up failure when it is unset is process start-up, not request logic.
- `time.strftime` (lines 183-184) is left out. The `today` and `now` strings are parameters.
- `print` logging and `on_session_started` are left out. They only write to the log.
- Field lookups on malformed records are not modelled. A record missing `group`, `id`, `name` or `status` would raise a KeyError. Records here are typed, so every field is present. The one missing key that is modelled is an IntentRequest without an intent.
- `Ssml.PauseRoundTrip`: the duration is an integer. Python's `str()` of a float or other object is not modelled.
- `Ssml.SayAsRoundTrip`: the message is a string. `str(msg)` of other types is not modelled.
- The order of the service table is insertion order. The script is written for Python 2 (it imports `urllib2`), whose dicts have no defined order. The problem list and card lines follow whichever order the table has, and no property depends on a particular order.

=== FILE: envelope.dfy ===
/** The response builders (alexa_signiant_status.py lines 104-147): the
    speechlet response with its SSML speech, card and reprompt, and the
    versioned envelope around it. */
module Envelope {
  import opened Wrappers
  import opened Text
  import opened Ssml

  /** An `outputSpeech` object; its `type` is always `SSML`. */
  datatype OutputSpeech = OutputSpeech(ssml: string)

  /** The card's `image` object; a key is present only for a truthy url. */
  datatype Image = Image(smallImageUrl: Option<string>, largeImageUrl: Option<string>)

  /** The two card shapes: `Simple` carries `content`, `Standard` carries
      `text` and an image. */
  datatype Card =
    | Simple(title: string, content: string)
    | Standard(title: string, text: string, image: Image)
  {
    /** The card's `type` field. */
    function Kind(): string {
      if Simple? then "Simple" else "Standard"
    }

    /** The card's body, whichever key it is stored under. */
    function Body(): string {
      if Simple? then content else text
    }
  }

  /** The `reprompt` object is a wrapper around one more output speech. */
  datatype Speechlet = Speechlet(
    outputSpeech: OutputSpeech,
    card: Card,
    reprompt: OutputSpeech,
    shouldEndSession: bool)

  datatype Response = Response(
    version: string,
    sessionAttributes: map<string, string>,
    response: Speechlet)

  /** An image url is kept exactly when it is truthy. */
  function ImageUrl(url: Option<string>): (r: Option<string>)
    ensures r.Some? <==> Truthy(url)
    ensures r.Some? ==> r == url
  {
    if Truthy(url) then url else None
  }

  /** `build_speechlet_response`. */
  function BuildSpeechlet(
    title: string, output: string, cardOutput: string, repromptText: string,
    smallImage: Option<string>, largeImage: Option<string>, shouldEndSession: bool): (r: Speechlet)
    ensures Unwrap(r.outputSpeech.ssml, SpeakOpen, SpeakClose) == Some(output)
    ensures Unwrap(r.reprompt.ssml, SpeakOpen, SpeakClose) == Some(repromptText)
    ensures r.card.title == title && r.card.Body() == cardOutput
    ensures r.card.Kind() == "Standard" <==> Truthy(smallImage) || Truthy(largeImage)
    ensures r.card.Standard? ==>
      && (r.card.image.smallImageUrl.Some? <==> Truthy(smallImage))
      && (r.card.image.largeImageUrl.Some? <==> Truthy(largeImage))
      && (r.card.image.smallImageUrl.Some? ==> r.card.image.smallImageUrl == smallImage)
      && (r.card.image.largeImageUrl.Some? ==> r.card.image.largeImageUrl == largeImage)
    ensures r.shouldEndSession == shouldEndSession
  {
    var card :=
      if Truthy(smallImage) || Truthy(largeImage) then
        Standard(title, cardOutput, Image(ImageUrl(smallImage), ImageUrl(largeImage)))
      else
        Simple(title, cardOutput);
    Speechlet(OutputSpeech(Speak(output)), card, OutputSpeech(Speak(repromptText)), shouldEndSession)
  }

  /** `build_response`: the speechlet under version 1.0. */
  function BuildResponse(sessionAttributes: map<string, string>, speechlet: Speechlet): (r: Response)
    ensures r.version == "1.0"
    ensures r.sessionAttributes == sessionAttributes && r.response == speechlet
  {
    Response("1.0", sessionAttributes, speechlet)
  }
}

=== FILE: faults.dfy ===
/** The exceptions the skill handler can raise, one constructor per raise site. */
module Faults {

  datatype Fault =
    /** `groups[service['group_id']]` raised a KeyError: a component names a
        group that no group record of the feed defines. */
    | UnknownGroup(groupId: string)
    /** `intent_request['intent']` raised a KeyError: an IntentRequest without
        an intent object. */
    | MissingIntent
    /** `ValueError("Invalid intent")`: the intent name is not one the skill handles. */
    | InvalidIntent(name: string)
    /** `ValueError("Invalid Application ID")`: the caller is not the configured skill. */
    | InvalidApplicationId
}

=== FILE: health.dfy ===
/** Classifying a service's status: `convert_status_to_readable`
    (alexa_signiant_status.py lines 75-85) and the problem filter inside
    `general_status` (lines 178-181). Both use Python's substring test, not
    equality, so a status only has to contain a code to match it. */
module Health {
  import opened Text
  import opened Services

  /** Whether a status contains one of the four non-operational codes. */
  predicate HasCode(status: string) {
    || Contains(status, "degraded_performance")
    || Contains(status, "major_outage")
    || Contains(status, "partial_outage")
    || Contains(status, "under_maintenance")
  }

  /** Every code contains an underscore, so a text without one holds no code. */
  lemma NoUnderscoreNoCode(s: string)
    requires '_' !in s
    ensures !HasCode(s)
  {
    forall code | code in ["degraded_performance", "major_outage", "partial_outage", "under_maintenance"]
      ensures !Contains(s, code)
    {
      assert '_' in code;
      if Contains(s, code) {
        ContainsKeepsChars(s, code, '_');
      }
    }
  }

  /** The spoken phrase for a status: the first code it contains, checked in
      the order degraded, major, partial, maintenance, mapped to words; any
      other status is spoken as it is. */
  function Readable(status: string): (r: string)
    ensures r == status <==> !HasCode(status)
    ensures !HasCode(r)
    ensures r == status || r in {"degraded performance", "major outage", "partial outage", "under maintenance"}
  {
    var r :=
      if Contains(status, "degraded_performance") then "degraded performance"
      else if Contains(status, "major_outage") then "major outage"
      else if Contains(status, "partial_outage") then "partial outage"
      else if Contains(status, "under_maintenance") then "under maintenance"
      else status;
    if HasCode(status) then
      assert '_' !in r;
      NoUnderscoreNoCode(r);
      r
    else r
  }

  /** The four codes in the order `convert_status_to_readable` tests them, and
      the phrase each one is spoken as. */
  const Codes: seq<string> := ["degraded_performance", "major_outage", "partial_outage", "under_maintenance"]
  const Phrases: seq<string> := ["degraded performance", "major outage", "partial outage", "under maintenance"]

  /** A status is spoken as the phrase of the first code, in test order, that
      it contains, whatever later codes it contains too. */
  lemma ReadableFirstCode(status: string, k: nat)
    requires k < |Codes|
    requires Contains(status, Codes[k])
    requires forall j :: 0 <= j < k ==> !Contains(status, Codes[j])
    ensures Readable(status) == Phrases[k]
  {
    if k == 1 {
      assert !Contains(status, Codes[0]);
    } else if k == 2 {
      assert !Contains(status, Codes[0]) && !Contains(status, Codes[1]);
    } else if k == 3 {
      assert !Contains(status, Codes[0]) && !Contains(status, Codes[1]) && !Contains(status, Codes[2]);
    }
  }

  /** A status holding two codes is spoken as the one tested first, not the
      one written first. */
  lemma ReadableTwoCodesExample()
    ensures Readable("major_outage degraded_performance") == "degraded performance"
  {
    var status := "major_outage degraded_performance";
    assert status[13..33] == Codes[0];
    assert OccursAt(status, Codes[0], 13);
    ReadableFirstCode(status, 0);
  }

  /** Making a status readable a second time changes nothing. */
  lemma ReadableIdempotent(status: string)
    ensures Readable(Readable(status)) == Readable(status)
  {
  }

  /** A status without an underscore, `operational` among them, is spoken as it is. */
  lemma ReadableKeepsPlainText(status: string)
    requires '_' !in status
    ensures Readable(status) == status
  {
    NoUnderscoreNoCode(status);
  }

  /** Each code on its own is spoken as its phrase. */
  lemma ReadableCodes()
    ensures Readable("degraded_performance") == "degraded performance"
    ensures Readable("major_outage") == "major outage"
    ensures Readable("partial_outage") == "partial outage"
    ensures Readable("under_maintenance") == "under maintenance"
  {
    ContainsItself("degraded_performance");
    ReadableMajorOutage();
    ReadablePartialOutage();
    ReadableUnderMaintenance();
  }

  lemma ReadableMajorOutage()
    ensures Readable("major_outage") == "major outage"
  {
    ContainsItself("major_outage");
    LongerNotContained("major_outage", "degraded_performance");
  }

  lemma ReadablePartialOutage()
    ensures Readable("partial_outage") == "partial outage"
  {
    ContainsItself("partial_outage");
    LongerNotContained("partial_outage", "degraded_performance");
    MissingCharNotContained("partial_outage", "major_outage", 'm');
  }

  lemma ReadableUnderMaintenance()
    ensures Readable("under_maintenance") == "under maintenance"
  {
    ContainsItself("under_maintenance");
    LongerNotContained("under_maintenance", "degraded_performance");
    MissingCharNotContained("under_maintenance", "major_outage", 'j');
    MissingCharNotContained("under_maintenance", "partial_outage", 'p');
  }

  lemma LongerNotContained(s: string, sub: string)
    requires |s| < |sub|
    ensures !Contains(s, sub)
  {
  }

  lemma MissingCharNotContained(s: string, sub: string, c: char)
    requires c in sub && c !in s
    ensures !Contains(s, sub)
  {
    if Contains(s, sub) {
      ContainsKeepsChars(s, sub, c);
    }
  }

  /** The test at line 180: a service is healthy when its status contains
      `operational` anywhere. */
  predicate Operational(s: Service) {
    Contains(s.status, "operational")
  }

  /** `a` is `b` with some entries left out, the rest kept in order. */
  ghost predicate IsSubsequence<T>(a: seq<T>, b: seq<T>)
    decreases |b|
  {
    if |a| == 0 then true
    else if |b| == 0 then false
    else
      || (a[|a| - 1] == b[|b| - 1] && IsSubsequence(a[..|a| - 1], b[..|b| - 1]))
      || IsSubsequence(a, b[..|b| - 1])
  }

  /** `signiant_problems`: the services that are not operational, in table order. */
  function Problems(svcs: seq<Service>): (ps: seq<Service>)
    ensures IsSubsequence(ps, svcs)
    ensures forall s :: s in ps <==> s in svcs && !Operational(s)
    ensures |ps| <= |svcs|
    ensures |ps| == 0 <==> forall s :: s in svcs ==> Operational(s)
  {
    if |svcs| == 0 then []
    else
      var prefix := svcs[..|svcs| - 1];
      var last := svcs[|svcs| - 1];
      assert svcs == prefix + [last];
      var earlier := Problems(prefix);
      if Operational(last) then earlier
      else
        var ps := earlier + [last];
        assert ps[..|ps| - 1] == earlier;
        ps
  }

  /** Some service is left out of the problem list exactly when some service
      is operational. */
  lemma {:induction false} FewerProblemsIffSomeOperational(svcs: seq<Service>)
    ensures |Problems(svcs)| < |svcs| <==> exists s :: s in svcs && Operational(s)
    decreases |svcs|
  {
    if |svcs| > 0 {
      var prefix := svcs[..|svcs| - 1];
      var last := svcs[|svcs| - 1];
      assert svcs == prefix + [last];
      FewerProblemsIffSomeOperational(prefix);
    }
  }
}

=== FILE: router.dfy ===
/** The skill's handlers and dispatch (alexa_signiant_status.py lines
    152-290): the help, session-end and status responses, `on_intent`, and
    the application-id guard and request-type dispatch of `lambda_handler`.

    What the process reads from its environment and the network is passed
    in as a `Context`: the configured application id, the component list the
    status feed returned, and the two clock strings. */
module Router {
  import opened Wrappers
  import opened Faults
  import opened Text
  import opened Ssml
  import opened Services
  import opened Summary
  import opened Envelope

  datatype Session = Session(isNew: bool, sessionId: string, applicationId: string)

  datatype Intent = Intent(name: string)

  /** `event['request']`; `intent` is only sent with an IntentRequest. */
  datatype Request = Request(requestType: string, requestId: string, intent: Option<Intent>)

  datatype Event = Event(session: Session, request: Request)

  datatype Context = Context(
    applicationId: string,
    components: seq<Component>,
    today: string,
    now: string)

  const HelpPrompt := "What can I help you with?"
  const HelpSpeech := "To request information about Signiant Platform Status, say status report" + DefaultPause + HelpPrompt

  /** `get_help_response`: the help text, spoken and on the card, and the
      session stays open for an answer. */
  function HelpResponse(): (r: Response)
    ensures r.version == "1.0" && r.sessionAttributes == map[]
    ensures !r.response.shouldEndSession
    ensures Unwrap(r.response.outputSpeech.ssml, SpeakOpen, SpeakClose) == Some(HelpSpeech)
    ensures r.response.card == Simple("Signiant Help", HelpSpeech)
    ensures Unwrap(r.response.reprompt.ssml, SpeakOpen, SpeakClose) == Some(HelpPrompt)
  {
    BuildResponse(map[], BuildSpeechlet("Signiant Help", HelpSpeech, HelpSpeech, HelpPrompt, None, None, false))
  }

  /** `handle_session_end_request`: a closing thank-you that ends the session,
      with an empty reprompt. */
  function SessionEndResponse(): (r: Response)
    ensures r.version == "1.0" && r.sessionAttributes == map[]
    ensures r.response.shouldEndSession
    ensures Unwrap(r.response.outputSpeech.ssml, SpeakOpen, SpeakClose) == Some("Thank you.")
    ensures r.response.card == Simple("Session Ended", "Thank you.")
    ensures Unwrap(r.response.reprompt.ssml, SpeakOpen, SpeakClose) == Some("")
  {
    BuildResponse(map[], BuildSpeechlet("Session Ended", "Thank you.", "Thank you.", "", None, None, true))
  }

  /** `get_status`: the status report, which ends the session. Fails when
      grouping the components fails. */
  function StatusResponse(ctx: Context): (r: Result<Response, Fault>)
    ensures r.Success? <==> GetServices(ctx.components).Success?
    ensures r.Failure? ==> r.error == GetServices(ctx.components).error
    ensures r.Success? ==>
      var svcs := GetServices(ctx.components).value;
      && r.value.version == "1.0" && r.value.sessionAttributes == map[]
      && r.value.response.shouldEndSession
      && r.value.response.card == Simple("Signiant Platform Status", CardText(svcs, ctx.today, ctx.now))
      && Unwrap(r.value.response.outputSpeech.ssml, SpeakOpen, SpeakClose) == Some(Speech(svcs, ctx.today))
      && Unwrap(r.value.response.reprompt.ssml, SpeakOpen, SpeakClose) == Some("")
  {
    match GeneralStatus(ctx.components, ctx.today, ctx.now)
    case Failure(e) => Failure(e)
    case Success(report) =>
      Success(BuildResponse(map[], BuildSpeechlet(
        "Signiant Platform Status", report.speech, report.card, "", None, None, true)))
  }

  /** The intents the skill answers and whether each one ends the session;
      None for every other name. */
  function SessionOutcome(intentName: string): Option<bool> {
    if intentName == "GetStatus" then Some(true)
    else if intentName == "AMAZON.HelpIntent" then Some(false)
    else if intentName == "AMAZON.CancelIntent" || intentName == "AMAZON.StopIntent" then Some(true)
    else None
  }

  /** `on_intent`: the status intent answers with the status report, the help
      intent with the help text, cancel and stop with the closing thank-you. */
  function OnIntent(request: Request, ctx: Context): (r: Result<Response, Fault>)
    ensures request.intent == Some(Intent("GetStatus")) ==> r == StatusResponse(ctx)
    ensures request.intent == Some(Intent("AMAZON.HelpIntent")) ==> r == Success(HelpResponse())
    ensures request.intent in {Some(Intent("AMAZON.CancelIntent")), Some(Intent("AMAZON.StopIntent"))} ==>
      r == Success(SessionEndResponse())
    ensures request.intent.None? ==> r == Failure(MissingIntent)
    ensures request.intent.Some? && SessionOutcome(request.intent.value.name).None? ==>
      r == Failure(InvalidIntent(request.intent.value.name))
    ensures (&& request.intent.Some? && request.intent.value.name != "GetStatus"
             && SessionOutcome(request.intent.value.name).Some?) ==> r.Success?
    ensures r.Success? ==>
      (request.intent.Some?
       && SessionOutcome(request.intent.value.name) == Some(r.value.response.shouldEndSession))
  {
    match request.intent
    case None => Failure(MissingIntent)
    case Some(intent) =>
      if intent.name == "GetStatus" then StatusResponse(ctx)
      else if intent.name == "AMAZON.HelpIntent" then Success(HelpResponse())
      else if intent.name == "AMAZON.CancelIntent" || intent.name == "AMAZON.StopIntent" then
        Success(SessionEndResponse())
      else Failure(InvalidIntent(intent.name))
  }

  /** `lambda_handler`: the application-id guard, then dispatch on the
      request type. A SessionEndedRequest, and any request type the skill
      does not know, returns no envelope. */
  function LambdaHandler(event: Event, ctx: Context): (r: Result<Option<Response>, Fault>)
    ensures event.session.applicationId != ctx.applicationId ==> r == Failure(InvalidApplicationId)
    ensures r.Success? && r.value.Some? ==>
      && event.session.applicationId == ctx.applicationId
      && event.request.requestType in {"LaunchRequest", "IntentRequest"}
      && r.value.value.version == "1.0"
    ensures event.session.applicationId == ctx.applicationId && event.request.requestType == "LaunchRequest" ==>
      && (r.Success? <==> StatusResponse(ctx).Success?)
      && (r.Success? ==> r.value == Some(StatusResponse(ctx).value))
      && (r.Failure? ==> r.error == StatusResponse(ctx).error)
    ensures event.session.applicationId == ctx.applicationId && event.request.requestType == "IntentRequest" ==>
      && (r.Success? <==> OnIntent(event.request, ctx).Success?)
      && (r.Success? ==> r.value == Some(OnIntent(event.request, ctx).value))
      && (r.Failure? ==> r.error == OnIntent(event.request, ctx).error)
    ensures (&& event.session.applicationId == ctx.applicationId
             && event.request.requestType !in {"LaunchRequest", "IntentRequest"}) ==> r == Success(None)
  {
    if event.session.applicationId != ctx.applicationId then Failure(InvalidApplicationId)
    else if event.request.requestType == "LaunchRequest" then
      match StatusResponse(ctx)
      case Success(resp) => Success(Some(resp))
      case Failure(e) => Failure(e)
    else if event.request.requestType == "IntentRequest" then
      match OnIntent(event.request, ctx)
      case Success(resp) => Success(Some(resp))
      case Failure(e) => Failure(e)
    else
      Success(None)
  }

  /** Launching the skill gives the status report, the same envelope the
      status intent gives, and ends the session. */
  lemma LaunchGivesStatus(event: Event, ctx: Context)
    requires event.session.applicationId == ctx.applicationId
    requires event.request.requestType == "LaunchRequest"
    ensures LambdaHandler(event, ctx).Success? <==> GetServices(ctx.components).Success?
    ensures LambdaHandler(event, ctx).Success? ==>
      && LambdaHandler(event, ctx).value.Some?
      && LambdaHandler(event, ctx).value.value.response.shouldEndSession
    ensures LambdaHandler(event, ctx).Success? ==>
      LambdaHandler(event, ctx).value == Some(StatusResponse(ctx).value)
  {
  }

  /** The end-of-session notification is acknowledged with no envelope. */
  lemma SessionEndedGivesNothing(event: Event, ctx: Context)
    requires event.session.applicationId == ctx.applicationId
    requires event.request.requestType == "SessionEndedRequest"
    ensures LambdaHandler(event, ctx) == Success(None)
  {
  }

  /** Dispatching an intent request: each intent of the table gets its own
      handler's envelope, whose session flag is the one the table gives, and
      an intent outside the table fails. */
  lemma IntentOutcome(event: Event, ctx: Context, name: string)
    requires event.session.applicationId == ctx.applicationId
    requires event.request.requestType == "IntentRequest"
    requires event.request.intent == Some(Intent(name))
    ensures SessionOutcome(name).None? ==> LambdaHandler(event, ctx) == Failure(InvalidIntent(name))
    ensures name == "AMAZON.HelpIntent" ==>
      && LambdaHandler(event, ctx) == Success(Some(HelpResponse()))
      && !LambdaHandler(event, ctx).value.value.response.shouldEndSession
    ensures name in {"AMAZON.CancelIntent", "AMAZON.StopIntent"} ==>
      && LambdaHandler(event, ctx) == Success(Some(SessionEndResponse()))
      && LambdaHandler(event, ctx).value.value.response.shouldEndSession
    ensures name == "GetStatus" ==>
      && (LambdaHandler(event, ctx).Success? <==> GetServices(ctx.components).Success?)
      && (LambdaHandler(event, ctx).Success? ==>
            && LambdaHandler(event, ctx).value == Some(StatusResponse(ctx).value)
            && LambdaHandler(event, ctx).value.value.response.shouldEndSession)
  {
  }
}

=== FILE: services.dfy ===
/** `get_signiant_status` (alexa_signiant_status.py lines 43-72): turning the
    status page's flat component list into a service-name -> status table.

    The Python dict `signiant_services` is modelled as a sequence of
    `Service` entries with pairwise distinct names, in insertion order; writing
    a name that is already present replaces its status in place, as a dict
    assignment does. */
module Services {
  import opened Wrappers
  import opened Faults

  /** One record of the feed's `components` array: `id`, `name`, `status`,
      `group_id` (null for top-level records) and the `group` flag. */
  datatype Component = Component(
    id: string,
    name: string,
    status: string,
    groupId: Option<string>,
    isGroup: bool)

  datatype Service = Service(name: string, status: string)

  // ------------------------------------------------------------ group names

  /** No later group record reuses the id of the group record at `i`. */
  ghost predicate LastGroupWithId(cs: seq<Component>, i: int)
    requires 0 <= i < |cs|
  {
    forall j :: i < j < |cs| && cs[j].isGroup ==> cs[j].id != cs[i].id
  }

  /** The `groups` dict: group id -> group name, built from the records whose
      `group` flag is set; a later record with the same id overwrites. */
  function GroupNames(cs: seq<Component>): (groups: map<string, string>)
    ensures forall k :: k in groups <==> exists i :: 0 <= i < |cs| && cs[i].isGroup && cs[i].id == k
    ensures forall i :: 0 <= i < |cs| && cs[i].isGroup && LastGroupWithId(cs, i) ==> groups[cs[i].id] == cs[i].name
  {
    if |cs| == 0 then map[]
    else
      var prefix := cs[..|cs| - 1];
      var c := cs[|cs| - 1];
      var earlier := GroupNames(prefix);
      assert forall i :: 0 <= i < |prefix| ==> prefix[i] == cs[i];
      if c.isGroup then earlier[c.id := c.name] else earlier
  }

  // ------------------------------------------------------- service table

  /** The service table's keys are distinct, as a dict's are. */
  predicate UniqueNames(svcs: seq<Service>) {
    forall i, j :: 0 <= i < j < |svcs| ==> svcs[i].name != svcs[j].name
  }

  /** `svcs[name]['status']`, or None when the key is absent. */
  function Lookup(svcs: seq<Service>, name: string): (r: Option<string>)
    ensures r.Some? <==> exists i :: 0 <= i < |svcs| && svcs[i].name == name
    ensures r.Some? ==> Service(name, r.value) in svcs
  {
    if |svcs| == 0 then None
    else if svcs[0].name == name then Some(svcs[0].status)
    else
      assert forall i :: 0 < i < |svcs| ==> svcs[i] == svcs[1..][i - 1];
      Lookup(svcs[1..], name)
  }

  /** `svcs[name] = {'status': status}`: replace in place when present,
      append otherwise. */
  function Put(svcs: seq<Service>, name: string, status: string): seq<Service> {
    if |svcs| == 0 then [Service(name, status)]
    else if svcs[0].name == name then [Service(name, status)] + svcs[1..]
    else [svcs[0]] + Put(svcs[1..], name, status)
  }

  /** What a dict assignment promises: names stay distinct, the assigned name
      maps to the new status, every other name keeps its status, no entry
      appears from elsewhere, and the table grows only for a new name. */
  lemma PutIsDictAssignment(svcs: seq<Service>, name: string, status: string)
    requires UniqueNames(svcs)
    ensures UniqueNames(Put(svcs, name, status))
    ensures Lookup(Put(svcs, name, status), name) == Some(status)
    ensures forall n :: n != name ==> Lookup(Put(svcs, name, status), n) == Lookup(svcs, n)
    ensures forall s :: s in Put(svcs, name, status) ==> s == Service(name, status) || s in svcs
    ensures |Put(svcs, name, status)| == |svcs| + (if Lookup(svcs, name).None? then 1 else 0)
  {
    PutKeepsNamesUnique(svcs, name, status);
    PutLookup(svcs, name, status);
    PutLength(svcs, name, status);
  }

  lemma {:induction false} PutEntries(svcs: seq<Service>, name: string, status: string)
    ensures forall s :: s in Put(svcs, name, status) ==> s == Service(name, status) || s in svcs
  {
    if |svcs| > 0 && svcs[0].name != name {
      PutEntries(svcs[1..], name, status);
    }
  }

  lemma {:induction false} PutKeepsNamesUnique(svcs: seq<Service>, name: string, status: string)
    requires UniqueNames(svcs)
    ensures UniqueNames(Put(svcs, name, status))
    ensures forall s :: s in Put(svcs, name, status) ==> s == Service(name, status) || s in svcs
  {
    PutEntries(svcs, name, status);
    var r := Put(svcs, name, status);
    if |svcs| == 0 {
    } else if svcs[0].name == name {
      assert forall i :: 0 <= i < |r| ==> r[i].name == svcs[i].name;
    } else {
      var rest := Put(svcs[1..], name, status);
      PutKeepsNamesUnique(svcs[1..], name, status);
      assert r[1..] == rest;
      assert forall j :: 0 <= j < |rest| ==> rest[j] in rest;
    }
  }

  lemma {:induction false} PutLookup(svcs: seq<Service>, name: string, status: string)
    ensures Lookup(Put(svcs, name, status), name) == Some(status)
    ensures forall n :: n != name ==> Lookup(Put(svcs, name, status), n) == Lookup(svcs, n)
  {
    var r := Put(svcs, name, status);
    if |svcs| == 0 {
    } else if svcs[0].name == name {
      assert r[1..] == svcs[1..];
    } else {
      PutLookup(svcs[1..], name, status);
      assert r[1..] == Put(svcs[1..], name, status);
    }
  }

  lemma {:induction false} PutLength(svcs: seq<Service>, name: string, status: string)
    ensures |Put(svcs, name, status)| == |svcs| + (if Lookup(svcs, name).None? then 1 else 0)
  {
    if |svcs| > 0 && svcs[0].name != name {
      PutLength(svcs[1..], name, status);
    }
  }

  // ------------------------------------------------------------- grouping

  /** Whether the loop at line 67 takes the record: its `group_id` is truthy
      and names a known group. */
  predicate Grouped(c: Component, groups: map<string, string>) {
    Truthy(c.groupId) && c.groupId.value in groups
  }

  /** The table key of a grouped record: `"<group name> <component name>"`. */
  function DisplayName(c: Component, groups: map<string, string>): string
    requires Grouped(c, groups)
  {
    groups[c.groupId.value] + " " + c.name
  }

  /** Every record with a truthy `group_id` names a group in `groups`. */
  predicate AllGroupsKnown(cs: seq<Component>, groups: map<string, string>) {
    forall i :: 0 <= i < |cs| && Truthy(cs[i].groupId) ==> cs[i].groupId.value in groups
  }

  /** The second loop of `get_signiant_status`, over the records in feed order,
      given the group table. */
  function CollectServices(cs: seq<Component>, groups: map<string, string>): (r: Result<seq<Service>, Fault>)
    ensures r.Success? <==> AllGroupsKnown(cs, groups)
    ensures r.Failure? ==>
      exists i :: 0 <= i < |cs| && Truthy(cs[i].groupId) && cs[i].groupId.value !in groups
        && r.error == UnknownGroup(cs[i].groupId.value) && AllGroupsKnown(cs[..i], groups)
    ensures r.Success? ==> UniqueNames(r.value)
    ensures r.Success? ==> forall s :: s in r.value ==>
      exists i :: 0 <= i < |cs| && Grouped(cs[i], groups)
        && s.name == DisplayName(cs[i], groups) && s.status == cs[i].status
  {
    if |cs| == 0 then Success([])
    else
      var prefix := cs[..|cs| - 1];
      var c := cs[|cs| - 1];
      assert forall i :: 0 <= i < |prefix| ==> prefix[i] == cs[i];
      var earlier := CollectServices(prefix, groups);
      if earlier.Failure? then
        assert prefix[..|prefix|] == prefix;
        assert forall i :: 0 <= i < |prefix| ==> prefix[..i] == cs[..i];
        earlier
      else if !Truthy(c.groupId) then
        earlier
      else if c.groupId.value !in groups then
        assert cs[..|cs| - 1] == prefix;
        Failure(UnknownGroup(c.groupId.value))
      else
        PutIsDictAssignment(earlier.value, DisplayName(c, groups), c.status);
        Success(Put(earlier.value, DisplayName(c, groups), c.status))
  }

  /** `get_signiant_status` on an already fetched component list. */
  function GetServices(cs: seq<Component>): (r: Result<seq<Service>, Fault>)
    ensures r.Failure? ==>
      exists i :: 0 <= i < |cs| && Truthy(cs[i].groupId) && r.error == UnknownGroup(cs[i].groupId.value)
        && forall j :: 0 <= j < |cs| && cs[j].isGroup ==> cs[j].id != cs[i].groupId.value
    ensures r.Success? ==> UniqueNames(r.value)
    ensures r.Success? ==> forall s :: s in r.value ==>
      exists i, j :: 0 <= i < |cs| && 0 <= j < |cs| && Truthy(cs[i].groupId)
        && cs[j].isGroup && cs[j].id == cs[i].groupId.value
        && s.name == GroupNames(cs)[cs[j].id] + " " + cs[i].name && s.status == cs[i].status
    ensures r.Success? ==> forall i :: 0 <= i < |cs| && Truthy(cs[i].groupId) ==>
      Grouped(cs[i], GroupNames(cs)) && Lookup(r.value, DisplayName(cs[i], GroupNames(cs))).Some?
    ensures r.Success? ==> forall name :: Lookup(r.value, name) == LastStatus(cs, GroupNames(cs), name)
  {
    var r := CollectServices(cs, GroupNames(cs));
    if r.Success? then
      CollectServicesComplete(cs, GroupNames(cs));
      r
    else r
  }

  // ---------------------------------------------------- reference definition

  /** The status of the last grouped record whose display name is `name`:
      the value a dict ends up with after the writes in feed order. */
  function LastStatus(cs: seq<Component>, groups: map<string, string>, name: string): Option<string> {
    if |cs| == 0 then None
    else
      var c := cs[|cs| - 1];
      if Grouped(c, groups) && DisplayName(c, groups) == name then Some(c.status)
      else LastStatus(cs[..|cs| - 1], groups, name)
  }

  /** After the loop, each name holds the status of the last record written
      under it, and no other name is present. */
  lemma {:induction false} CollectServicesIsLastWrite(cs: seq<Component>, groups: map<string, string>, name: string)
    requires AllGroupsKnown(cs, groups)
    ensures Lookup(CollectServices(cs, groups).value, name) == LastStatus(cs, groups, name)
    decreases |cs|
  {
    if |cs| > 0 {
      var prefix := cs[..|cs| - 1];
      var c := cs[|cs| - 1];
      assert forall i :: 0 <= i < |prefix| ==> prefix[i] == cs[i];
      CollectServicesIsLastWrite(prefix, groups, name);
      if Truthy(c.groupId) {
        PutIsDictAssignment(CollectServices(prefix, groups).value, DisplayName(c, groups), c.status);
      }
    }
  }

  /** A grouped record always leaves an entry under its display name. */
  lemma {:induction false} GroupedRecordAppears(cs: seq<Component>, groups: map<string, string>, i: int)
    requires AllGroupsKnown(cs, groups)
    requires 0 <= i < |cs| && Truthy(cs[i].groupId)
    ensures Lookup(CollectServices(cs, groups).value, DisplayName(cs[i], groups)).Some?
    decreases |cs|
  {
    var name := DisplayName(cs[i], groups);
    CollectServicesIsLastWrite(cs, groups, name);
    LastStatusFound(cs, groups, i);
  }

  /** The whole table at once: every grouped record is present, and every
      name holds its last writer's status. */
  lemma CollectServicesComplete(cs: seq<Component>, groups: map<string, string>)
    requires AllGroupsKnown(cs, groups)
    ensures forall i :: 0 <= i < |cs| && Truthy(cs[i].groupId) ==>
      Lookup(CollectServices(cs, groups).value, DisplayName(cs[i], groups)).Some?
    ensures forall name :: Lookup(CollectServices(cs, groups).value, name) == LastStatus(cs, groups, name)
  {
    forall i | 0 <= i < |cs| && Truthy(cs[i].groupId)
      ensures Lookup(CollectServices(cs, groups).value, DisplayName(cs[i], groups)).Some?
    {
      GroupedRecordAppears(cs, groups, i);
    }
    forall name
      ensures Lookup(CollectServices(cs, groups).value, name) == LastStatus(cs, groups, name)
    {
      CollectServicesIsLastWrite(cs, groups, name);
    }
  }

  lemma {:induction false} LastStatusFound(cs: seq<Component>, groups: map<string, string>, i: int)
    requires 0 <= i < |cs| && Grouped(cs[i], groups)
    ensures LastStatus(cs, groups, DisplayName(cs[i], groups)).Some?
    decreases |cs|
  {
    var last := cs[|cs| - 1];
    if i < |cs| - 1 && !(Grouped(last, groups) && DisplayName(last, groups) == DisplayName(cs[i], groups)) {
      var prefix := cs[..|cs| - 1];
      assert prefix[i] == cs[i];
      LastStatusFound(prefix, groups, i);
    }
  }

  /** `get_signiant_status` raises exactly when some record's truthy
      `group_id` is not the id of any group record in the feed. */
  lemma GetServicesFailsOnUnknownGroup(cs: seq<Component>)
    ensures GetServices(cs).Success? <==>
      forall i :: 0 <= i < |cs| && Truthy(cs[i].groupId) ==>
        exists j :: 0 <= j < |cs| && cs[j].isGroup && cs[j].id == cs[i].groupId.value
  {
  }

  /** A group record "Backend" with id "g1" and a leaf "v1" in "g1" give the
      single service "Backend v1" with the leaf's status. */
  lemma BackendGroupExample()
    ensures GetServices([
      Component("g1", "Backend", "operational", None, true),
      Component("c1", "v1", "operational", Some("g1"), false)
    ]) == Success([Service("Backend v1", "operational")])
  {
    var cs := [
      Component("g1", "Backend", "operational", None, true),
      Component("c1", "v1", "operational", Some("g1"), false)
    ];
    var groups := GroupNames(cs);
    assert cs[..1] == [cs[0]];
    assert [cs[0]][..0] == [];
    assert groups == map["g1" := "Backend"];
    assert CollectServices([], groups) == Success([]);
    assert CollectServices(cs[..1], groups) == Success([]);
    assert DisplayName(cs[1], groups) == "Backend v1";
  }
}

=== FILE: ssml.dfy ===
/** The SSML helpers of the skill (alexa_signiant_status.py lines 88-99) and
    the `<speak>` root that every spoken text is wrapped in. */
module Ssml {
  import opened Wrappers
  import opened Text

  const BreakOpen := "<break time=\""
  const BreakClose := "ms\"/>"

  /** A pause of `duration` milliseconds. */
  function Pause(duration: int): string {
    BreakOpen + IntToString(duration) + BreakClose
  }

  /** `pause()` with its default argument, the one every caller uses. */
  const DefaultPause := Pause(1000)

  /** Reads the duration back out of a pause marker. */
  function PauseDuration(markup: string): Option<int> {
    match Unwrap(markup, BreakOpen, BreakClose)
    case Some(digits) => ParseInt(digits)
    case None => None
  }

  /** A pause marker carries exactly the duration it was built with. */
  lemma PauseRoundTrip(duration: int)
    ensures PauseDuration(Pause(duration)) == Some(duration)
  {
    UnwrapWrap(BreakOpen, IntToString(duration), BreakClose);
    IntToStringRoundTrip(duration);
  }

  function SayAsOpen(interpretAs: string): string {
    "<say-as interpret-as=\"" + interpretAs + "\"> "
  }

  const SayAsClose := "</say-as>"

  /** An interpretation hint around `msg`; the space after the opening tag is the source's. */
  function SayAs(interpretAs: string, msg: string): string {
    SayAsOpen(interpretAs) + msg + SayAsClose
  }

  /** The message inside a say-as hint is recovered unchanged. */
  lemma SayAsRoundTrip(interpretAs: string, msg: string)
    ensures Unwrap(SayAs(interpretAs, msg), SayAsOpen(interpretAs), SayAsClose) == Some(msg)
  {
    UnwrapWrap(SayAsOpen(interpretAs), msg, SayAsClose);
  }

  const AudioOpen := "<audio src='"
  const AudioClose := "' />"

  /** An embedded audio clip. */
  function HandleAudio(url: string): string {
    AudioOpen + url + AudioClose
  }

  /** The url inside an audio element is recovered unchanged. */
  lemma HandleAudioRoundTrip(url: string)
    ensures Unwrap(HandleAudio(url), AudioOpen, AudioClose) == Some(url)
  {
    UnwrapWrap(AudioOpen, url, AudioClose);
  }

  const SpeakOpen := "<speak>"
  const SpeakClose := "</speak>"

  /** The SSML document for a spoken text. */
  function Speak(text: string): (ssml: string)
    ensures Unwrap(ssml, SpeakOpen, SpeakClose) == Some(text)
  {
    UnwrapWrap(SpeakOpen, text, SpeakClose);
    SpeakOpen + text + SpeakClose
  }
}

=== FILE: summary.dfy ===
/** `general_status` (alexa_signiant_status.py lines 173-202): the spoken
    report and the card text built from the service table. The two
    `time.strftime` results are parameters: `today` is the date line and
    `now` the time of day. */
module Summary {
  import opened Wrappers
  import opened Faults
  import opened Text
  import opened Ssml
  import opened Services
  import opened Health

  const ReportTitle := "Current Signiant Platform Status report for "
  const AllNormal := "All services operating normally"
  const OthersNormal := "All other services are operating normally"
  const MoreInfo := "For more information, " + "please visit status.signiant.com"

  datatype StatusReport = StatusReport(speech: string, card: string)

  /** The spoken sentence for one problem service, pause included. */
  function ProblemLine(s: Service): string {
    s.name + " has a status of " + Readable(s.status) + DefaultPause
  }

  function ProblemLines(ps: seq<Service>): seq<string> {
    seq(|ps|, i requires 0 <= i < |ps| => ProblemLine(ps[i]))
  }

  /** The card line for one service, without its newline. */
  function Entry(s: Service): string {
    s.name + ": " + s.status
  }

  function Entries(svcs: seq<Service>): seq<string> {
    seq(|svcs|, i requires 0 <= i < |svcs| => Entry(svcs[i]))
  }

  /** The opening of the spoken report, up to and including its first pause. */
  function SpeechOpening(today: string): string {
    ReportTitle + today + DefaultPause
  }

  function CardHeader(today: string, now: string): string {
    ReportTitle + today + " at " + now
  }

  /** The all-other sentence and its pause, when it is said at all. */
  function OthersClause(said: bool): string {
    if said then OthersNormal + DefaultPause else ""
  }

  /** The spoken report as `general_status` assembles it. */
  function Speech(svcs: seq<Service>, today: string): string {
    var ps := Problems(svcs);
    if |ps| > 0 then
      SpeechOpening(today) + Concat(ProblemLines(ps)) + OthersClause(|ps| < |svcs|) + MoreInfo
    else
      SpeechOpening(today) + AllNormal
  }

  /** With no problem, the report is the opening and the all-normal sentence
      alone: no status sentence and no pointer to the status page. */
  lemma SpeechAllOperational(svcs: seq<Service>, today: string)
    requires forall s :: s in svcs ==> Operational(s)
    ensures Speech(svcs, today) == SpeechOpening(today) + AllNormal
    ensures !EndsWith(Speech(svcs, today), MoreInfo)
  {
    var speech := Speech(svcs, today);
    assert |Problems(svcs)| == 0;
    assert speech[|speech| - 1] == AllNormal[|AllNormal| - 1] == 'y';
    assert MoreInfo[|MoreInfo| - 1] == 'm';
  }

  /** With some problem, the report is the opening, one sentence per problem
      in table order, the all-other sentence exactly when some service is
      operational, and the pointer to the status page last. */
  lemma SpeechWithProblems(svcs: seq<Service>, today: string)
    requires exists s :: s in svcs && !Operational(s)
    ensures Speech(svcs, today) ==
      SpeechOpening(today) + Concat(ProblemLines(Problems(svcs)))
        + OthersClause(exists s :: s in svcs && Operational(s))
        + MoreInfo
  {
    var ps := Problems(svcs);
    assert |ps| > 0;
    FewerProblemsIffSomeOperational(svcs);
  }

  /** The report points to the status page exactly when some service has a
      problem. */
  lemma SpeechPointsToStatusPage(svcs: seq<Service>, today: string)
    ensures EndsWith(Speech(svcs, today), MoreInfo) <==> exists s :: s in svcs && !Operational(s)
  {
    if exists s :: s in svcs && !Operational(s) {
      SpeechWithProblems(svcs, today);
      var speech := Speech(svcs, today);
      var body := SpeechOpening(today) + Concat(ProblemLines(Problems(svcs)))
        + OthersClause(exists s :: s in svcs && Operational(s));
      assert speech == body + MoreInfo;
      assert speech[|body|..] == MoreInfo;
    } else {
      SpeechAllOperational(svcs, today);
    }
  }

  /** The card text: header line, one `name: status` line per service in
      table order, then the pointer to the status page. */
  function CardText(svcs: seq<Service>, today: string, now: string): string {
    CardHeader(today, now) + "\n" + Concat(Terminated(Entries(svcs), '\n')) + MoreInfo
  }

  /** Read line by line, the card is its header, exactly one line per
      service, and the status-page line, as long as no date, time, name or
      status itself holds a newline. */
  lemma CardLines(svcs: seq<Service>, today: string, now: string)
    requires '\n' !in today && '\n' !in now
    requires forall s :: s in svcs ==> '\n' !in s.name && '\n' !in s.status
    ensures Split(CardText(svcs, today, now), '\n') == [CardHeader(today, now)] + Entries(svcs) + [MoreInfo]
  {
    var lines := [CardHeader(today, now)] + Entries(svcs) + [MoreInfo];
    TerminatedIsJoin(CardHeader(today, now), Entries(svcs), MoreInfo, '\n');
    assert CardText(svcs, today, now) == Join(lines, '\n');
    CardLinesHaveNoNewline(svcs, today, now);
    SplitJoin(lines, '\n');
  }

  /** `CardLines` as an implication, for callers that do not know whether the
      inputs are free of newlines. */
  lemma CardLinesWhenNewlineFree(svcs: seq<Service>, today: string, now: string)
    ensures ('\n' !in today && '\n' !in now && forall s :: s in svcs ==> '\n' !in s.name && '\n' !in s.status) ==>
      Split(CardText(svcs, today, now), '\n') == [CardHeader(today, now)] + Entries(svcs) + [MoreInfo]
  {
    if '\n' !in today && '\n' !in now && forall s :: s in svcs ==> '\n' !in s.name && '\n' !in s.status {
      CardLines(svcs, today, now);
    }
  }

  lemma CardLinesHaveNoNewline(svcs: seq<Service>, today: string, now: string)
    requires '\n' !in today && '\n' !in now
    requires forall s :: s in svcs ==> '\n' !in s.name && '\n' !in s.status
    ensures forall i :: 0 <= i < |svcs| + 2 ==> '\n' !in ([CardHeader(today, now)] + Entries(svcs) + [MoreInfo])[i]
  {
    var lines := [CardHeader(today, now)] + Entries(svcs) + [MoreInfo];
    HeaderHasNoNewline(today, now);
    FooterHasNoNewline();
    forall i | 0 < i <= |svcs|
      ensures '\n' !in lines[i]
    {
      assert svcs[i - 1] in svcs;
      EntryHasNoNewline(svcs[i - 1]);
    }
  }

  lemma HeaderHasNoNewline(today: string, now: string)
    requires '\n' !in today && '\n' !in now
    ensures '\n' !in CardHeader(today, now)
  {
    assert '\n' !in ReportTitle && '\n' !in " at ";
  }

  lemma FooterHasNoNewline()
    ensures '\n' !in MoreInfo
  {
    assert '\n' !in "For more information, ";
    assert '\n' !in "please visit status.signiant.com";
  }

  lemma EntryHasNoNewline(s: Service)
    requires '\n' !in s.name && '\n' !in s.status
    ensures '\n' !in Entry(s)
  {
    assert '\n' !in ": ";
  }

  /** The loop at lines 178-181: the services whose status does not contain
      `operational`, in table order. */
  method CollectProblems(svcs: seq<Service>) returns (problems: seq<Service>)
    ensures problems == Problems(svcs)
  {
    problems := [];
    var i := 0;
    while i < |svcs|
      invariant 0 <= i <= |svcs|
      invariant problems == Problems(svcs[..i])
    {
      assert svcs[..i + 1][..i] == svcs[..i];
      if !Operational(svcs[i]) {
        problems := problems + [svcs[i]];
      }
      i := i + 1;
    }
    assert svcs[..i] == svcs;
  }

  /** Lines 186-189: the card header, one line per service, the footer. */
  method BuildCard(svcs: seq<Service>, today: string, now: string) returns (card: string)
    ensures card == CardText(svcs, today, now)
  {
    var lines := Terminated(Entries(svcs), '\n');
    var head := CardHeader(today, now) + "\n";
    card := head;
    var j := 0;
    while j < |svcs|
      invariant 0 <= j <= |svcs|
      invariant card == head + Concat(lines[..j])
    {
      ConcatSnoc(lines, j);
      card := card + (Entry(svcs[j]) + "\n");
      j := j + 1;
    }
    assert lines[..j] == lines;
    card := card + MoreInfo;
  }

  /** The loop at lines 194-195: one sentence per problem, in order. */
  method SpeakProblems(problems: seq<Service>) returns (text: string)
    ensures text == Concat(ProblemLines(problems))
  {
    var said := ProblemLines(problems);
    text := "";
    var k := 0;
    while k < |problems|
      invariant 0 <= k <= |problems|
      invariant text == Concat(said[..k])
    {
      ConcatSnoc(said, k);
      text := text + ProblemLine(problems[k]);
      k := k + 1;
    }
    assert said[..k] == said;
  }

  /** Lines 191-200, given the problem list. */
  method BuildSpeech(svcs: seq<Service>, problems: seq<Service>, today: string) returns (speech: string)
    requires problems == Problems(svcs)
    ensures speech == Speech(svcs, today)
  {
    speech := SpeechOpening(today);
    if |problems| > 0 {
      var sentences := SpeakProblems(problems);
      speech := speech + sentences;
      if |problems| < |svcs| {
        speech := speech + (OthersNormal + DefaultPause);
      }
      assert speech == SpeechOpening(today) + sentences + OthersClause(|problems| < |svcs|);
      speech := speech + MoreInfo;
    } else {
      speech := speech + AllNormal;
    }
  }

  /** `general_status` as written, on an already grouped service table. */
  method BuildReport(svcs: seq<Service>, today: string, now: string) returns (speech: string, card: string)
    ensures speech == Speech(svcs, today)
    ensures card == CardText(svcs, today, now)
  {
    var problems := CollectProblems(svcs);
    card := BuildCard(svcs, today, now);
    speech := BuildSpeech(svcs, problems, today);
  }

  /** `general_status` on the fetched component list: group, then report. */
  function GeneralStatus(cs: seq<Component>, today: string, now: string): (r: Result<StatusReport, Fault>)
    ensures r.Success? <==> GetServices(cs).Success?
    ensures r.Failure? ==> r.error == GetServices(cs).error
    ensures r.Success? ==>
      r.value == StatusReport(Speech(GetServices(cs).value, today), CardText(GetServices(cs).value, today, now))
    ensures r.Success? ==>
      (EndsWith(r.value.speech, MoreInfo) <==> exists s :: s in GetServices(cs).value && !Operational(s))
    ensures (&& r.Success? && '\n' !in today && '\n' !in now
             && forall s :: s in GetServices(cs).value ==> '\n' !in s.name && '\n' !in s.status) ==>
      Split(r.value.card, '\n') == [CardHeader(today, now)] + Entries(GetServices(cs).value) + [MoreInfo]
  {
    match GetServices(cs)
    case Success(svcs) =>
      SpeechPointsToStatusPage(svcs, today);
      CardLinesWhenNewlineFree(svcs, today, now);
      Success(StatusReport(Speech(svcs, today), CardText(svcs, today, now)))
    case Failure(e) => Failure(e)
  }

  /** A feed with group "Backend" and its operational component "v1": one
      service, no problem, and the all-normal report. */
  lemma OperationalGroupExample(today: string, now: string)
    ensures GeneralStatus([
      Component("g1", "Backend", "operational", None, true),
      Component("c1", "v1", "operational", Some("g1"), false)
    ], today, now) == Success(StatusReport(
      SpeechOpening(today) + AllNormal,
      CardText([Service("Backend v1", "operational")], today, now)))
  {
    var svcs := [Service("Backend v1", "operational")];
    BackendGroupExample();
    ContainsItself("operational");
    SpeechAllOperational(svcs, today);
  }

  /** That service's card line reads `Backend v1: operational`. */
  lemma OperationalGroupCardLine()
    ensures Entries([Service("Backend v1", "operational")]) == ["Backend v1: operational"]
  {
    assert Entries([Service("Backend v1", "operational")])[0] == "Backend v1" + ": " + "operational";
    assert "Backend v1" + ": " + "operational" == "Backend v1: operational";
  }

  /** A component outside any group is dropped, so an outage reported only
      on it goes unmentioned: the report says all services are normal. */
  lemma UngroupedOutageExample(today: string, now: string)
    ensures GeneralStatus([Component("c1", "API", "major_outage", None, false)], today, now)
      == Success(StatusReport(SpeechOpening(today) + AllNormal, CardText([], today, now)))
  {
    var cs := [Component("c1", "API", "major_outage", None, false)];
    assert cs[..0] == [];
    assert GetServices(cs) == Success([]);
    SpeechAllOperational([], today);
  }
}

=== FILE: text.dfy ===
/** String operations the handler relies on, written out over `seq<char>`:
    Python's substring test, concatenation of many pieces, splitting on a
    separator, stripping a fixed prefix and suffix, and `str()` of an integer. */
module Text {
  import opened Wrappers

  /** Python's `sub in s`: `sub` occurs in `s` as a contiguous run. */
  predicate Contains(s: string, sub: string) {
    exists i :: 0 <= i <= |s| && OccursAt(s, sub, i)
  }

  predicate OccursAt(s: string, sub: string, i: nat) {
    i + |sub| <= |s| && s[i..i + |sub|] == sub
  }

  lemma ContainsItself(s: string)
    ensures Contains(s, s)
  {
    assert s[0..|s|] == s;
    assert OccursAt(s, s, 0);
  }

  /** Every character of a contained string is a character of the container. */
  lemma ContainsKeepsChars(s: string, sub: string, c: char)
    requires Contains(s, sub)
    requires c in sub
    ensures c in s
  {
    var i :| 0 <= i <= |s| && OccursAt(s, sub, i);
    var k :| 0 <= k < |sub| && sub[k] == c;
    assert s[i + k] == s[i..i + |sub|][k];
  }

  predicate EndsWith(s: string, suffix: string) {
    |suffix| <= |s| && s[|s| - |suffix|..] == suffix
  }

  /** The pieces written one after the other. */
  function Concat(pieces: seq<string>): string {
    if |pieces| == 0 then "" else pieces[0] + Concat(pieces[1..])
  }

  lemma {:induction false} ConcatAppend(a: seq<string>, b: seq<string>)
    ensures Concat(a + b) == Concat(a) + Concat(b)
    decreases |a|
  {
    if |a| == 0 {
      assert a + b == b;
    } else {
      assert (a + b)[1..] == a[1..] + b;
      ConcatAppend(a[1..], b);
    }
  }

  /** Writing one more piece extends the text by exactly that piece. */
  lemma ConcatSnoc(pieces: seq<string>, i: nat)
    requires i < |pieces|
    ensures Concat(pieces[..i + 1]) == Concat(pieces[..i]) + pieces[i]
  {
    assert pieces[..i + 1] == pieces[..i] + [pieces[i]];
    ConcatAppend(pieces[..i], [pieces[i]]);
    assert Concat([pieces[i]]) == pieces[i] + Concat([]);
  }

  /** Each piece followed by the separator. */
  function Terminated(pieces: seq<string>, sep: char): (lines: seq<string>)
    ensures |lines| == |pieces|
  {
    seq(|pieces|, i requires 0 <= i < |pieces| => pieces[i] + [sep])
  }

  /** The pieces with the separator between consecutive ones. */
  function Join(pieces: seq<string>, sep: char): string
    requires |pieces| > 0
  {
    if |pieces| == 1 then pieces[0] else pieces[0] + [sep] + Join(pieces[1..], sep)
  }

  /** Index of the first occurrence of `c`, or `|s|` when there is none. */
  function IndexOf(s: string, c: char): (k: nat)
    ensures k <= |s|
    ensures k < |s| ==> s[k] == c
    ensures forall i :: 0 <= i < k ==> s[i] != c
  {
    if |s| == 0 then 0 else if s[0] == c then 0 else 1 + IndexOf(s[1..], c)
  }

  /** Python's `s.split(sep)` for a one-character separator. */
  function Split(s: string, sep: char): (parts: seq<string>)
    ensures |parts| > 0
    decreases |s|
  {
    var k := IndexOf(s, sep);
    if k == |s| then [s] else [s[..k]] + Split(s[k + 1..], sep)
  }

  /** Splitting a joined list gives the list back when no piece holds the separator. */
  lemma {:induction false} SplitJoin(pieces: seq<string>, sep: char)
    requires |pieces| > 0
    requires forall i :: 0 <= i < |pieces| ==> sep !in pieces[i]
    ensures Split(Join(pieces, sep), sep) == pieces
    decreases |pieces|
  {
    if |pieces| == 1 {
      assert IndexOf(pieces[0], sep) == |pieces[0]|;
    } else {
      var rest := Join(pieces[1..], sep);
      SplitAtFirst(pieces[0], rest, sep);
      SplitJoin(pieces[1..], sep);
    }
  }

  /** The first separator ends the first part. */
  lemma SplitAtFirst(head: string, rest: string, sep: char)
    requires sep !in head
    ensures Split(head + [sep] + rest, sep) == [head] + Split(rest, sep)
  {
    var s := head + [sep] + rest;
    assert s[|head|] == sep;
    assert IndexOf(s, sep) == |head|;
    assert s[..|head|] == head;
    assert s[|head| + 1..] == rest;
  }

  /** A header, then each piece terminated by the separator, then a last piece,
      is the same text as all of them joined by the separator. */
  lemma {:induction false} TerminatedIsJoin(head: string, pieces: seq<string>, last: string, sep: char)
    ensures head + [sep] + Concat(Terminated(pieces, sep)) + last == Join([head] + pieces + [last], sep)
    decreases |pieces|
  {
    var all := [head] + pieces + [last];
    assert all[1..] == pieces + [last];
    if |pieces| == 0 {
      assert Concat(Terminated(pieces, sep)) == "";
      assert Join([last], sep) == last;
    } else {
      var t := Terminated(pieces, sep);
      assert t[1..] == Terminated(pieces[1..], sep);
      assert Concat(t) == pieces[0] + [sep] + Concat(Terminated(pieces[1..], sep));
      TerminatedIsJoin(pieces[0], pieces[1..], last, sep);
      assert [pieces[0]] + pieces[1..] + [last] == pieces + [last];
    }
  }

  /** The text strictly between a known opening and closing, if both are there. */
  function Unwrap(s: string, open: string, close: string): Option<string> {
    if |open| + |close| <= |s| && s[..|open|] == open && s[|s| - |close|..] == close
    then Some(s[|open|..|s| - |close|])
    else None
  }

  lemma UnwrapWrap(open: string, body: string, close: string)
    ensures Unwrap(open + body + close, open, close) == Some(body)
  {
    var s := open + body + close;
    assert s[..|open|] == open;
    assert s[|s| - |close|..] == close;
    assert s[|open|..|s| - |close|] == body;
  }

  // ---------------------------------------------------------------- integers

  predicate IsDigit(c: char) {
    '0' <= c <= '9'
  }

  predicate AllDigits(s: string) {
    forall i :: 0 <= i < |s| ==> IsDigit(s[i])
  }

  function DigitChar(d: nat): (c: char)
    requires d < 10
    ensures IsDigit(c)
  {
    ('0' as int + d) as char
  }

  function DigitValue(c: char): (d: nat)
    requires IsDigit(c)
    ensures d < 10
  {
    c as int - '0' as int
  }

  /** Decimal digits of a natural number, most significant first, no leading zeros. */
  function NatToString(n: nat): (s: string)
    ensures |s| > 0 && AllDigits(s)
  {
    if n < 10 then [DigitChar(n)] else NatToString(n / 10) + [DigitChar(n % 10)]
  }

  /** Python's `str(n)` for an int. */
  function IntToString(n: int): string {
    if n < 0 then "-" + NatToString(-n) else NatToString(n)
  }

  /** The value of a string of decimal digits. */
  function DigitsValue(s: string): nat
    requires AllDigits(s)
  {
    if |s| == 0 then 0 else DigitsValue(s[..|s| - 1]) * 10 + DigitValue(s[|s| - 1])
  }

  /** Python's `int(s)` restricted to an optional minus sign followed by digits. */
  function ParseInt(s: string): Option<int> {
    if 1 < |s| && s[0] == '-' && AllDigits(s[1..]) then Some(0 - DigitsValue(s[1..]))
    else if 0 < |s| && AllDigits(s) then Some(DigitsValue(s))
    else None
  }

  lemma {:induction false} NatToStringValue(n: nat)
    ensures DigitsValue(NatToString(n)) == n
  {
    if n >= 10 {
      var s := NatToString(n);
      assert s[..|s| - 1] == NatToString(n / 10);
      NatToStringValue(n / 10);
    }
  }

  /** `str` then `int` gives the integer back. */
  lemma IntToStringRoundTrip(n: int)
    ensures ParseInt(IntToString(n)) == Some(n)
  {
    var s := IntToString(n);
    if n < 0 {
      var digits := NatToString(-n);
      assert s[1..] == digits;
      assert 1 < |s| && s[0] == '-' && AllDigits(s[1..]);
      NatToStringValue(-n);
    } else {
      assert IsDigit(s[0]);
      NatToStringValue(n);
    }
  }
}

=== FILE: wrappers.dfy ===
/** Option and Result types used across the model: an optional value (a
    JSON field that may be null or absent) and a result that either carries a
    value or the error the Python code would raise. */
module Wrappers {

  datatype Option<+T> = None | Some(value: T)

  datatype Result<+R, +E> = Success(value: R) | Failure(error: E)

  /** Python truthiness of an optional string: `None` and `""` are false. */
  predicate Truthy(o: Option<string>) {
    o.Some? && o.value != ""
  }
}
